=== FILE: README.md ===
# DiamondSphere camera and explosion bookkeeping, in Dafny

A Dafny model of the logic the DiamondSphere demo owns, as opposed to the 3D engine it configures:

- **`moveCameraTo` / `animFinished`** (src/utils/camera.ts). This is the camera-transition coordinator. From its optional arguments it decides three things:
  - whether the call is a no-op;
  - whether to register the shared `forceRebuild` per-frame hook;
  - which of `target`, `position`, `alpha`, `beta` and `radius` to animate.

  It keeps a per-call list of pending animation names. Each completion splices one name out. When the list empties, the completion fires the caller's callback and unregisters `forceRebuild`.
- **The explosion record and rotation flag** (src/scenes/DiamondSphere.ts). This covers:
  - `_explosionInfo` with its `ratio`, `animations` and `update` fields;
  - `_animateExplosionRatioTo` and its completion callback;
  - `hideStructure` and `showStructure`;
  - `startRotation` and `stopRotation`;
  - the per-frame hook that rotates the camera and re-applies the explosion;
  - the camera presets `setCamera0..3` and `_animateCamera`.

Everything is immutable data and pure functions:

| file | module | contents |
|---|---|---|
| `nullable.dfy` | `Nullable` | nullable arguments, and JavaScript default parameters, which replace only an omitted argument |
| `seqs.dfy` | `Seqs` | `indexOf` and `splice` on sequences |
| `observable.dfy` | `Observable` | the scene's `onBeforeRenderObservable` list: `add`, and `removeCallback` by reference |
| `camera.dfy` | `CameraTransition` | `moveCameraTo`, `animFinished`, and a driver that feeds completion events to one call |
| `diamond_sphere.dfy` | `DiamondSphere` | the scene state, its events (hide, show, start/stop rotation, frame, an engine write of the animated ratio, ratio-animation end) and the presets |

The engine's animation primitive is modelled as "starts an animation of property N, then later delivers one completion for N". A run of completions is any sequence of names, and the lifecycle lemmas take any order of them. The closeness test `Vector3.Distance(a, b) < 1` is a parameter `near`. `CameraTransition.WithinUnit` is its exact-arithmetic instance: squared distance below 1.

Behaviour of the code worth knowing:

- **Early return.** The no-op guard does not need both a position and a target. `endTarget` is `target || camera.target`, which is never null, so a non-null `position` is enough. Without a `target`, the target half of the test compares the camera's target with itself.
- **Presets and `target`.** `setCamera1` (and every other preset) passes a `target`, but it is never animated. `target` is animated only when `alpha`, `beta` and `radius` are all null, and the presets pass all three.
- **Shared hook.** Calls are not fully independent. `forceRebuild` is one shared function, added per call but removed by reference. So a call that finishes removes a `forceRebuild` registered by another call that is still running (`OtherCallRemovesSharedHook`).
- **Ratio playback speed.** The explosion ratio animation has keys at frames 0 and 120 at 120 frames per second, and `beginAnimation` plays it with a speed ratio of 4.
- **In-flight ratio.** While a ratio animation plays, the engine writes eased in-between values into `_explosionInfo.ratio`, and while `update` is raised every frame passes that value to `explode`. The ratio is therefore not limited to the keys 0.05 and 0.24, but it stays between 0 and 0.24 (`RatiosStayInRange`).
- **Restarting the ratio animation.** `beginAnimation` stops the animatable already running on `_explosionInfo`, and stopping it runs that animatable's end callback, which sets `update` to false right after `_animateExplosionRatioTo` set it to true. So `hideStructure` or `showStructure` called before the previous one has finished leaves `update` false. The ratio still animates, and at the new animation's end the callback sets `update` to false once more. Frames stop calling `explode` until the next `hideStructure` or `showStructure` started with no animation running. Until then the meshes keep the layout of the last `explode`, while the record's `ratio` settles at the new target (`RestartWhilePlaying`, `RestartLeavesLayoutBehind`, `HideMidShowStrandsLayout`).
- **Frames before loading.** The per-frame hook is registered right after `_parent` is set, with no wait in between, so before loading a frame does nothing even when `update` is raised (`NoFrameBeforeLoad`).

## Model

| member | source | states |
|---|---|---|
| Nullable.Bind | src/utils/camera.ts:17-18 | A default parameter applies only when the argument is left out; an explicit `null` is passed through |
| CameraTransition.Rate | src/utils/camera.ts:17-25 | `speed` / `frameCount` is the given number when non-null, and 60 both when left out and when passed as `null` |
| CameraTransition.MoveCameraTo | src/utils/camera.ts:10-84 | The call is a no-op exactly when `position` is non-null and the camera is near both `position` and `target`-or-current-target. Otherwise `forceRebuild` is appended iff `alpha`, `beta` and `radius` are all null. The pending list holds exactly the selected names, each once, in the order target, position, alpha, beta, radius. There is one animation per pending name, from the camera's current value to the requested one, at the resolved speed and frame count |
| CameraTransition.AnimNames | src/utils/camera.ts:44-82 | A name is in the list iff its selection rule holds: `target` only with no orbit argument, every other property iff non-null. The list is strictly ordered by source order, so it has no duplicates |
| CameraTransition.NoTargetGuardIsPositionOnly | src/utils/camera.ts:29-36 | With exact distances and no `target`, the early return depends only on the camera being within 1 of `position` |
| CameraTransition.NothingSelectedLeavesHook | src/utils/camera.ts:21-39 | With every animation argument null, the call registers `forceRebuild` but starts no animation and leaves an empty pending list. None of this call's completions can ever remove the hook or fire the callback |
| Seqs.FirstIndex | src/utils/camera.ts:87 | `indexOf` of a present element is the position of its first occurrence |
| Seqs.SpliceOut | src/utils/camera.ts:87 | `splice(indexOf(x), 1)` removes the first copy of a present `x` and keeps the rest in order. For an absent `x` it removes the last element, and it leaves an empty list empty |
| Observable.Add | src/utils/camera.ts:38 | `add` appends the observer after all existing ones and keeps them unchanged |
| Observable.RemoveCallback | src/utils/camera.ts:91 | `removeCallback` drops the first occurrence of the callback when present, keeping every other observer in registration order, and leaves the list unchanged when absent |
| Observable.RemoveAfterAdd | src/utils/camera.ts:37-91 | Removing `forceRebuild` right after adding it to a list without it restores the list exactly |
| CameraTransition.AnimFinished | src/utils/camera.ts:86-93 | A completion removes one copy of its name. The list empties iff at most one name was pending. The callback fires iff the list emptied and a callback was given. The hooks change only when the list empties, and never when no `forceRebuild` is registered |
| CameraTransition.Drive | src/utils/camera.ts:48-92 | Over any run of completions, the callback fires at exactly the events where the list emptied when a callback was given, and never otherwise |
| CameraTransition.CompletionStep | src/utils/camera.ts:86-88 | A completion that is one of the outstanding ones leaves the remaining completions as the pending list. It empties the list iff it was the last one |
| CameraTransition.CompletesExactlyOnce | src/utils/camera.ts:86-92 | With one completion per pending name, in any order: the list ends empty, and it empties on the last completion and on no earlier one. The callback (if given) fires exactly once, there. The hook removal happens at that same moment |
| CameraTransition.HookRestored | src/utils/camera.ts:37-91 | A call whose completions all arrive leaves the hook list as it was before the call, whether or not it registered `forceRebuild`, when no other `forceRebuild` is registered |
| CameraTransition.TransitionLifecycle | src/utils/camera.ts:21-92 | For a call that starts at least one animation, followed by one completion per animation in any order: the callback fires once, on the last completion, and the scene's hooks end as before the call, when no other `forceRebuild` is registered |
| CameraTransition.OtherCallRemovesSharedHook | src/utils/camera.ts:37-91 | A position/target-driven call registers `forceRebuild`. Another call that registered nothing then finishes and removes that hook, while the first call still has names pending |
| DiamondSphere.AnimateExplosionRatioTo | src/scenes/DiamondSphere.ts:88-115 | Raises `update`, leaves `ratio` unchanged and appends exactly one animation, keeping the earlier ones. The new animation's keys are frame 0 at the current ratio and frame 120 at the requested ratio |
| DiamondSphere.RatioAnimationEnd | src/scenes/DiamondSphere.ts:112-114 | On completion `update` is false, the animations are kept, and `ratio` is the last key of the newest animation |
| DiamondSphere.AnimateThenComplete | src/scenes/DiamondSphere.ts:88-114 | Starting a ratio animation and completing it lands on the requested ratio with `update` down |
| DiamondSphere.StartRatioAnimation | src/scenes/DiamondSphere.ts:88-114 | Starting a ratio animation appends its animation, keeps the ratio and leaves an animatable running. `update` ends raised exactly when no animatable was running before, because `beginAnimation` stops a running one and its end callback lowers the flag. Nothing else of the scene changes |
| DiamondSphere.HideStructure | src/scenes/DiamondSphere.ts:150-152 | `hideStructure` appends one animation from the current ratio to 0.05 and starts it. `update` is raised unless a ratio animation was already running |
| DiamondSphere.ShowStructure | src/scenes/DiamondSphere.ts:153-155 | `showStructure` appends one animation from the current ratio to 0.24 and starts it. `update` is raised unless a ratio animation was already running |
| DiamondSphere.Frame | src/scenes/DiamondSphere.ts:256-266 | The hook rotates the camera by (0.008, 0.02) only when a parent exists and rotation is not stopped. It calls `explode` with the current ratio only while `update` is true. It changes nothing else |
| DiamondSphere.LoadedLayoutAheadOfRatio | src/scenes/DiamondSphere.ts:186-187 | After loading, the meshes have been exploded to 0.05 while the record says ratio 0 with no animations and `update` false. So the first ratio animation starts from 0, not 0.05 |
| DiamondSphere.AnimationsOnlyGrow | src/scenes/DiamondSphere.ts:110 | Over any sequence of events the `animations` list never shrinks, and it keeps its earlier entries in order at its front |
| DiamondSphere.Load | src/scenes/DiamondSphere.ts:186-256 | Loading calls `explode(0.05)` once, creates the parent transform and registers the per-frame hook. It leaves the explosion record, the running animatable, the rotation flag and the camera angles as they were |
| DiamondSphere.EngineWrite | src/scenes/DiamondSphere.ts:95-112 | While an animatable runs and an animation exists, the engine may write into `ratio` only a value between the newest animation's two keys. It never touches `update` or the animation list |
| DiamondSphere.Step | src/scenes/DiamondSphere.ts:157-162 | `startRotation` and `stopRotation` set the rotation flag to false and true and change nothing else. Before loading a frame changes nothing. An engine write changes only `ratio` |
| DiamondSphere.NoFrameBeforeLoad | src/scenes/DiamondSphere.ts:186-256 | Before loading, a frame after `hideStructure` calls no `explode` although `update` is raised |
| DiamondSphere.LoadedRatiosInRange | src/scenes/DiamondSphere.ts:55-59 | The loaded scene (initial record plus the load-time explode) has its ratio, keys and `explode` arguments in [0, 0.24] |
| DiamondSphere.StepKeepsRatiosInRange | src/scenes/DiamondSphere.ts:88-162 | Every entry point, frame, engine write and animation end keeps the ratio, every key and every `explode` argument in [0, 0.24] |
| DiamondSphere.RatiosStayInRange | src/scenes/DiamondSphere.ts:88-155 | Over any sequence of events, including in-flight engine writes and animations started while another plays, the ratio, every animation key and every value given to `explode` lie in [0, 0.24] |
| DiamondSphere.UpdateHeldUntilEnd | src/scenes/DiamondSphere.ts:96-114 | Once `update` is raised, frames, engine writes and rotation toggles keep it raised. Once the scene is loaded, each frame calls `explode` exactly once; before loading, none does |
| DiamondSphere.QuietKeepsAnimation | src/scenes/DiamondSphere.ts:110-114 | Frames, engine writes and rotation toggles neither start nor end a ratio animation: the animation list, `update` and the running animatable stay as they were |
| DiamondSphere.UpdateOnlyWhilePlaying | src/scenes/DiamondSphere.ts:94-114 | Over any sequence of events, `update` is raised only while an animatable runs on the record |
| DiamondSphere.StalledUntilEnd | src/scenes/DiamondSphere.ts:94-114 | With an animatable running and `update` down, no event short of the animation's end raises `update` again, and no frame calls `explode` |
| DiamondSphere.RestartWhilePlaying | src/scenes/DiamondSphere.ts:112-114 | `hideStructure` or `showStructure` while a ratio animation runs leaves `update` down, and frames stop calling `explode` |
| DiamondSphere.ShowThenHideStalls | src/scenes/DiamondSphere.ts:150-155 | After loading, `showStructure` then `hideStructure` before the show finishes: the next frame finds `update` down, so the load's `explode(0.05)` is still the only call |
| DiamondSphere.IdleKeepsLayout | src/scenes/DiamondSphere.ts:256-266 | With no animation running and `update` down, no event but `hideStructure` / `showStructure` changes the record or calls `explode` |
| DiamondSphere.RestartThenEnd | src/scenes/DiamondSphere.ts:112-114 | A restart while an animation runs, followed by the new animation's end, leaves the ratio at the new target, `update` down, nothing running and no `explode` call since the restart |
| DiamondSphere.RestartLeavesLayoutBehind | src/scenes/DiamondSphere.ts:112-114 | After such a restart and its end, no `explode` call happens until the next `hideStructure` / `showStructure`, while the record says the new target |
| DiamondSphere.HideMidShowStrandsLayout | src/scenes/DiamondSphere.ts:150-155 | After loading: show, two frames around an engine write of 0.2, hide mid-show, its end and two more frames. The record settles at 0.05 with `update` down, while the meshes were last exploded to 0.2 |
| DiamondSphere.HideSettles | src/scenes/DiamondSphere.ts:88-152 | From any scene, `hideStructure` followed by frames, engine writes and rotation toggles has `update` raised exactly when no ratio animation was running before. The animation's end lowers it and settles the ratio at 0.05 |
| DiamondSphere.StoppedRotationHolds | src/scenes/DiamondSphere.ts:257-261 | With rotation stopped and no `startRotation`, no frame or other scene event changes the camera angles. Camera presets are transitions of their own and are not among these events |
| DiamondSphere.RotationToggle | src/scenes/DiamondSphere.ts:157-162 | Once a parent exists, after `stopRotation` a frame leaves the camera angles unchanged. After `startRotation` a frame advances them by (0.008, 0.02) |
| DiamondSphere.SetCamera | src/scenes/DiamondSphere.ts:313-348 | Every preset is launched, never as a no-op, and never registers `forceRebuild`. It pends exactly [alpha, beta, radius] without a callback. It animates those three from their current values to the preset's constants at 60 fps over 60 frames, and never animates `target` |
| DiamondSphere.OrbitCompletion | src/utils/camera.ts:86-92 | A call with three pending names and no callback empties on its third completion, in any order, with no callback. The removal of `forceRebuild` is attempted at that point |
| DiamondSphere.PresetCompletion | src/scenes/DiamondSphere.ts:345-348 | A preset transition run to completion never fires a callback. On its third completion it attempts to remove `forceRebuild` from the scene's hooks |

## Left out

- **Scene setup.** Out of scope: mesh loading (`_loadDiamond`), node materials, lights, shadows, the mirror texture, the bloom pipeline, sun rays, the background layer, the camera limits in `createCamera` and the light-direction hook. They configure the engine and load assets, and have no logic of their own. `Load` keeps only the load-time `explode(0.05)` and the creation of the parent transform.
- **Interpolation.** The cubic ease-in-out curve is the engine's and is not modelled. An engine write is an event carrying any value between the newest animation's two keys, so the model does not fix which in-between value a given frame sees.
- **Playback timing.** The speed ratio 4 and the 120 frames per second only set how long the engine takes. Frames and the animation's end are separate events, so their timing is not modelled.
- **Closeness test.** `Vector3.Distance` is a floating-point square root. It is the parameter `near`; `WithinUnit` is its exact-real reading.
- **Number arithmetic.** Numbers are exact reals, so JavaScript floating-point rounding is not modelled. For example, `CAMERA_Y - 0.1` is exactly 0.7, and repeated `+= 0.008` does not accumulate rounding error.
- **Engine scheduling.** Not modelled: frame ordering between animations and hooks, overlapping animations on the same property (last write wins each frame), and the new animatable replaying the whole `animations` list. The stop of a running animatable and its end callback are modelled; where the stopped animation leaves the ratio is whatever the engine last wrote. The completion of a ratio animation is modelled as leaving `ratio` at the newest animation's last key.
- **`CreateAndStartAnimation`.** It is assumed to start every requested animation and deliver exactly one completion for it. Its loop mode and easing arguments are not modelled.
- **`removeCallback`.** The engine defers the unregistration; it is modelled as immediate.
- **Completion callbacks.** A caller's callback is recorded only as fired or not, and its own effects on the scene are not modelled. In `animFinished` it runs before `removeCallback(forceRebuild)` (src/utils/camera.ts:90-91), so a callback that starts a new transition sees the hook still registered.
- **`forceRebuild`'s body.** `rebuildAnglesAndRadius` is an engine call and is not modelled. The camera position that an `ArcRotateCamera` derives from its angles is not recomputed after a rotation step.
- **`MeshExploder`.** Its displacement is a foreign library call. It is recorded only as "explode was invoked with this ratio".
- **Camera identity.** The presets take the camera they move as an `ArcCamera` argument, separate from the scene's angles that auto-rotation advances. No lemma ties a preset's start values to the rotated angles.
- **Colours.** The random diamond colour choice (`Math.random()`) is not modelled.
- **Absent names.** `animFinished` for a name that is not pending is modelled by `SpliceOut`, but the lifecycle lemmas assume each pending name completes exactly once, which is what the engine delivers.

=== FILE: camera.dfy ===
/** The camera-transition coordinator of src/utils/camera.ts: `moveCameraTo`
    decides from its optional arguments whether to do nothing, whether to
    register the shared `forceRebuild` hook and which camera properties to
    animate; each animation's completion runs `animFinished`, which shrinks
    the call's pending-name list and, once it is empty, fires the caller's
    callback and unregisters `forceRebuild`.

    The engine's animation primitive is abstracted to "starts an animation
    of property N, and later delivers one completion event for N". */
module CameraTransition {
  import opened Nullable
  import opened Seqs
  import opened Observable

  datatype Vec3 = Vec3(x: real, y: real, z: real)

  /** The animation names pushed onto `animNames`. */
  datatype Prop = Target | Position | Alpha | Beta | Radius

  datatype Value = Vector(vec: Vec3) | Scalar(num: real)

  /** The fields of an `ArcRotateCamera` that the coordinator reads and animates. */
  datatype ArcCamera = ArcCamera(position: Vec3, target: Vec3, alpha: real, beta: real, radius: real)

  /** The arguments of one `moveCameraTo` call after `camera`. `position`,
      `target`, `alpha`, `beta` and `radius` default to `null`, so leaving
      them out and passing `null` are the same; `speed` and `frameCount`
      default to 60. The callback itself is opaque: only its presence matters. */
  datatype Request = Request(
    position: Nullable<Vec3>,
    target: Nullable<Vec3>,
    alpha: Nullable<real>,
    beta: Nullable<real>,
    radius: Nullable<real>,
    speed: Param<real>,
    frameCount: Param<real>,
    hasCallback: bool)

  /** One `Animation.CreateAndStartAnimation` call: property, start value,
      end value, frames per second and total frames. */
  datatype Anim = Anim(prop: Prop, from: Value, to: Value, fps: real, frames: real)

  /** The bookkeeping of one call that did not return early: its own
      `animNames` list and whether a callback was supplied. */
  datatype Transition = Transition(pending: seq<Prop>, hasCallback: bool)

  /** What `moveCameraTo` leaves behind: nothing at all, or the scene's hook
      list after the optional registration, the animations it started and
      the call's bookkeeping. */
  datatype Launch =
    | EarlyReturn
    | Launched(hooks: seq<Hook>, anims: seq<Anim>, call: Transition)

  /** The default of both `speed` and `frameCount`. */
  const DEFAULT_RATE: real := 60.0

  /** `speed` / `frameCount` as used: the JavaScript default applies when
      the argument is left out, then an explicit `null` is replaced by 60. */
  function Rate(p: Param<real>): (r: real)
    ensures p.Passed? && p.arg.NonNull? ==> r == p.arg.value
    ensures p.Omitted? || p.arg.Null? ==> r == 60.0
  {
    OrElse(Bind(p, DEFAULT_RATE), DEFAULT_RATE)
  }

  /** `target || camera.target`: a `Vector3` object is always truthy. */
  function EndTarget(cam: ArcCamera, req: Request): Vec3
  {
    if req.target.NonNull? then req.target.value else cam.target
  }

  /** The no-op guard. `endTarget` is never `null` because the camera always
      has a target, so the guard only needs a non-null `position`; `near`
      stands for `Vector3.Distance(a, b) < 1`. */
  predicate ReturnsEarly(cam: ArcCamera, req: Request, near: (Vec3, Vec3) -> bool)
  {
    && req.position.NonNull?
    && near(cam.position, req.position.value)
    && near(cam.target, EndTarget(cam, req))
  }

  /** None of the orbit arguments was given: the move is position/target driven. */
  predicate NoOrbitArgs(req: Request)
  {
    req.alpha.Null? && req.beta.Null? && req.radius.Null?
  }

  /** Which properties a call that did not return early animates, one rule
      per property: the target only for a position/target-driven move, every
      other property exactly when its argument is non-null. */
  predicate Selected(req: Request, p: Prop)
  {
    match p
    case Target => req.target.NonNull? && NoOrbitArgs(req)
    case Position => req.position.NonNull?
    case Alpha => req.alpha.NonNull?
    case Beta => req.beta.NonNull?
    case Radius => req.radius.NonNull?
  }

  /** The order in which camera.ts considers the properties. */
  function Rank(p: Prop): nat
  {
    match p
    case Target => 0
    case Position => 1
    case Alpha => 2
    case Beta => 3
    case Radius => 4
  }

  /** The current value of a property, read when its animation starts. */
  function Current(cam: ArcCamera, p: Prop): Value
  {
    match p
    case Target => Vector(cam.target)
    case Position => Vector(cam.position)
    case Alpha => Scalar(cam.alpha)
    case Beta => Scalar(cam.beta)
    case Radius => Scalar(cam.radius)
  }

  /** The requested end value of a selected property. */
  function Goal(req: Request, p: Prop): Value
    requires Selected(req, p)
  {
    match p
    case Target => Vector(req.target.value)
    case Position => Vector(req.position.value)
    case Alpha => Scalar(req.alpha.value)
    case Beta => Scalar(req.beta.value)
    case Radius => Scalar(req.radius.value)
  }

  /** `if (cond) animNames.push(p)`. */
  function PushIf(names: seq<Prop>, cond: bool, p: Prop): seq<Prop>
  {
    if cond then names + [p] else names
  }

  /** The `animNames` list as the five `if` blocks of `moveCameraTo` build it. */
  function AnimNames(req: Request): (names: seq<Prop>)
    ensures forall p :: p in names <==> Selected(req, p)
    ensures forall i, j :: 0 <= i < j < |names| ==> Rank(names[i]) < Rank(names[j])
  {
    var n1 := PushIf([], req.target.NonNull? && req.alpha.Null? && req.beta.Null? && req.radius.Null?, Target);
    var n2 := PushIf(n1, req.position.NonNull?, Position);
    var n3 := PushIf(n2, req.alpha.NonNull?, Alpha);
    var n4 := PushIf(n3, req.beta.NonNull?, Beta);
    PushIf(n4, req.radius.NonNull?, Radius)
  }

  /** The animations started for `names`, one per name and in the same order. */
  function StartAll(cam: ArcCamera, req: Request, names: seq<Prop>): (anims: seq<Anim>)
    requires forall p :: p in names ==> Selected(req, p)
    ensures |anims| == |names|
    ensures forall i :: 0 <= i < |names| ==>
      anims[i] == Anim(names[i], Current(cam, names[i]), Goal(req, names[i]), Rate(req.speed), Rate(req.frameCount))
  {
    if names == [] then []
    else
      [Anim(names[0], Current(cam, names[0]), Goal(req, names[0]), Rate(req.speed), Rate(req.frameCount))]
      + StartAll(cam, req, names[1..])
  }

  /** `moveCameraTo(camera, ...)` on a scene whose hook list is `hooks`. */
  function MoveCameraTo(cam: ArcCamera, req: Request, near: (Vec3, Vec3) -> bool, hooks: seq<Hook>): (r: Launch)
    // the no-op guard is the only way to return without effect
    ensures r.EarlyReturn? <==> ReturnsEarly(cam, req, near)
    // `forceRebuild` is registered iff no orbit argument was given
    ensures r.Launched? ==> r.hooks == (if NoOrbitArgs(req) then hooks + [ForceRebuild] else hooks)
    // the pending list holds exactly the selected names, once each, in source order
    ensures r.Launched? ==> forall p :: p in r.call.pending <==> Selected(req, p)
    ensures r.Launched? ==> forall i, j :: 0 <= i < j < |r.call.pending| ==>
      Rank(r.call.pending[i]) < Rank(r.call.pending[j])
    // one animation per pending name, from the current to the requested value
    ensures r.Launched? ==> |r.anims| == |r.call.pending|
    ensures r.Launched? ==> forall i :: 0 <= i < |r.anims| ==>
      && r.anims[i].prop == r.call.pending[i]
      && r.anims[i].from == Current(cam, r.call.pending[i])
      && r.anims[i].to == Goal(req, r.call.pending[i])
      && r.anims[i].fps == Rate(req.speed)
      && r.anims[i].frames == Rate(req.frameCount)
    ensures r.Launched? ==> r.call.hasCallback == req.hasCallback
  {
    if ReturnsEarly(cam, req, near) then EarlyReturn
    else
      var hooks' := if req.alpha.Null? && req.beta.Null? && req.radius.Null? then Add(hooks, ForceRebuild) else hooks;
      var names := AnimNames(req);
      Launched(hooks', StartAll(cam, req, names), Transition(names, req.hasCallback))
  }

  /** The effect of one `animFinished` run: the call's remaining names, the
      scene's hooks, whether the list became empty and whether the callback ran. */
  datatype Finished = Finished(pending: seq<Prop>, hooks: seq<Hook>, allFinished: bool, callbackFired: bool)

  /** `animFinished(name, animNames, callBack, scene)`. */
  function AnimFinished(name: Prop, call: Transition, hooks: seq<Hook>): (r: Finished)
    ensures name in call.pending ==> multiset(r.pending) == multiset(call.pending) - multiset{name}
    // the list empties exactly when at most one name was left
    ensures r.allFinished <==> |call.pending| <= 1
    ensures r.callbackFired <==> r.allFinished && call.hasCallback
    ensures !r.allFinished ==> r.hooks == hooks
    ensures r.allFinished ==> r.hooks == RemoveCallback(hooks, ForceRebuild)
    // removal is attempted even without a registration, and is then harmless
    ensures ForceRebuild !in hooks ==> r.hooks == hooks
  {
    var rest := SpliceOut(call.pending, name);
    var all := |rest| == 0;
    Finished(rest, if all then RemoveCallback(hooks, ForceRebuild) else hooks, all, all && call.hasCallback)
  }

  /** The run of a call under the completion events `events`, the first of
      which is event number `at` of the whole run. */
  datatype CallRun = CallRun(pending: seq<Prop>, hooks: seq<Hook>, finishedAt: seq<nat>, callbackAt: seq<nat>)

  /** Feeds completion events to `animFinished` one after the other, noting
      the event numbers at which the list became empty (and `forceRebuild`
      removal was attempted) and those at which the callback ran. */
  function Drive(call: Transition, hooks: seq<Hook>, events: seq<Prop>, at: nat): (r: CallRun)
    ensures r.callbackAt == if call.hasCallback then r.finishedAt else []
    ensures |r.finishedAt| <= |events|
    decreases |events|
  {
    if events == [] then CallRun(call.pending, hooks, [], [])
    else
      var f := AnimFinished(events[0], call, hooks);
      var rest := Drive(Transition(f.pending, call.hasCallback), f.hooks, events[1..], at + 1);
      CallRun(rest.pending,
          rest.hooks,
          (if f.allFinished then [at] else []) + rest.finishedAt,
          (if f.callbackFired then [at] else []) + rest.callbackAt)
  }

  /** A completion for a pending name removes one copy of it, and empties
      the list exactly when it was the last outstanding completion. */
  lemma CompletionStep(call: Transition, hooks: seq<Hook>, events: seq<Prop>)
    requires |events| > 0
    requires multiset(events) == multiset(call.pending)
    ensures multiset(AnimFinished(events[0], call, hooks).pending) == multiset(events[1..])
    ensures AnimFinished(events[0], call, hooks).allFinished <==> |events| == 1
  {
    assert events == [events[0]] + events[1..];
    assert events[0] in multiset(call.pending);
    assert |call.pending| == |multiset(call.pending)| == |events|;
  }

  /** One completion for every pending name, in any order: the list empties
      on the last completion and on no earlier one, so the callback (when
      given) runs exactly once, there, and so does the hook removal. */
  lemma {:induction false} CompletesExactlyOnce(call: Transition, hooks: seq<Hook>, events: seq<Prop>, at: nat)
    requires |events| > 0
    requires multiset(events) == multiset(call.pending)
    ensures Drive(call, hooks, events, at).pending == []
    ensures Drive(call, hooks, events, at).finishedAt == [at + |events| - 1]
    ensures Drive(call, hooks, events, at).callbackAt == if call.hasCallback then [at + |events| - 1] else []
    ensures Drive(call, hooks, events, at).hooks == RemoveCallback(hooks, ForceRebuild)
    decreases |events|
  {
    CompletionStep(call, hooks, events);
    var f := AnimFinished(events[0], call, hooks);
    var next := Transition(f.pending, call.hasCallback);
    if |events| == 1 {
      assert f.pending == [] by {
        assert |f.pending| == |multiset(f.pending)| == |multiset(events[1..])| == 0;
      }
    } else {
      CompletesExactlyOnce(next, f.hooks, events[1..], at + 1);
    }
  }

  /** A call whose completions all arrive, on a hook list that holds at most
      the call's own `forceRebuild` registration, leaves the list as it was
      before the registration. */
  lemma {:induction false} HookRestored(call: Transition, before: seq<Hook>, registered: bool, events: seq<Prop>)
    requires ForceRebuild !in before
    requires |events| > 0
    requires multiset(events) == multiset(call.pending)
    ensures Drive(call, if registered then before + [ForceRebuild] else before, events, 0).hooks == before
    ensures Drive(call, if registered then before + [ForceRebuild] else before, events, 0).callbackAt ==
      if call.hasCallback then [|events| - 1] else []
  {
    var hooks := if registered then before + [ForceRebuild] else before;
    CompletesExactlyOnce(call, hooks, events, 0);
    if registered {
      RemoveAfterAdd(before, ForceRebuild);
    }
  }

  /** A whole transition: when the call does not return early, selects at
      least one property, and the engine then delivers one completion per
      started animation in any order, the callback runs exactly once, on the
      last completion, and the hook list ends as it was before the call
      (provided no other call had `forceRebuild` registered). */
  lemma TransitionLifecycle(cam: ArcCamera, req: Request, near: (Vec3, Vec3) -> bool, hooks: seq<Hook>, events: seq<Prop>)
    requires ForceRebuild !in hooks
    requires MoveCameraTo(cam, req, near, hooks).Launched?
    requires |MoveCameraTo(cam, req, near, hooks).anims| > 0
    requires multiset(events) == multiset(MoveCameraTo(cam, req, near, hooks).call.pending)
    ensures var l := MoveCameraTo(cam, req, near, hooks);
      var run := Drive(l.call, l.hooks, events, 0);
      && run.callbackAt == (if req.hasCallback then [|events| - 1] else [])
      && run.hooks == hooks
  {
    var l := MoveCameraTo(cam, req, near, hooks);
    assert |events| > 0 by {
      assert |multiset(events)| == |multiset(l.call.pending)| == |l.call.pending| == |l.anims|;
    }
    HookRestored(l.call, hooks, NoOrbitArgs(req), events);
  }

  /** The case the TODO in camera.ts points at: with every animation argument
      `null` the call registers `forceRebuild` but starts no animation, so no
      completion can ever arrive to remove the hook or fire the callback. */
  lemma NothingSelectedLeavesHook(cam: ArcCamera, req: Request, near: (Vec3, Vec3) -> bool, hooks: seq<Hook>)
    requires req.position.Null? && req.target.Null? && NoOrbitArgs(req)
    ensures MoveCameraTo(cam, req, near, hooks) == Launched(hooks + [ForceRebuild], [], Transition([], req.hasCallback))
  {
  }

  /** `forceRebuild` is shared by all calls and removed by reference: a call
      without a registration that finishes removes the hook a still-running
      position/target-driven call registered. */
  lemma OtherCallRemovesSharedHook(
    cam: ArcCamera, near: (Vec3, Vec3) -> bool, hooks: seq<Hook>,
    first: Request, second: Request, events: seq<Prop>)
    requires ForceRebuild !in hooks
    requires MoveCameraTo(cam, first, near, hooks).Launched? && NoOrbitArgs(first)
    requires MoveCameraTo(cam, first, near, hooks).call.pending != []
    requires !NoOrbitArgs(second)
    requires MoveCameraTo(cam, second, near, MoveCameraTo(cam, first, near, hooks).hooks).Launched?
    requires multiset(events) == multiset(MoveCameraTo(cam, second, near, MoveCameraTo(cam, first, near, hooks).hooks).call.pending)
    ensures var a := MoveCameraTo(cam, first, near, hooks);
      var b := MoveCameraTo(cam, second, near, a.hooks);
      && ForceRebuild in a.hooks
      && Drive(b.call, b.hooks, events, 0).hooks == hooks
  {
    var a := MoveCameraTo(cam, first, near, hooks);
    var b := MoveCameraTo(cam, second, near, a.hooks);
    assert second.alpha.NonNull? || second.beta.NonNull? || second.radius.NonNull?;
    assert b.call.pending != [] by {
      if second.alpha.NonNull? { assert Alpha in b.call.pending; }
      else if second.beta.NonNull? { assert Beta in b.call.pending; }
      else { assert Radius in b.call.pending; }
    }
    assert |events| > 0 by {
      assert |multiset(events)| == |multiset(b.call.pending)| > 0;
    }
    CompletesExactlyOnce(b.call, b.hooks, events, 0);
    RemoveAfterAdd(hooks, ForceRebuild);
  }

  /** `Vector3.Distance(a, b) < 1` in exact arithmetic: the distance is below
      one exactly when its square is. */
  predicate WithinUnit(a: Vec3, b: Vec3)
  {
    var dx := a.x - b.x;
    var dy := a.y - b.y;
    var dz := a.z - b.z;
    dx * dx + dy * dy + dz * dz < 1.0
  }

  /** Without a `target`, the target half of the guard compares the camera's
      target with itself, so only the position decides the early return. */
  lemma NoTargetGuardIsPositionOnly(cam: ArcCamera, req: Request)
    requires req.target.Null?
    ensures ReturnsEarly(cam, req, WithinUnit) <==>
      req.position.NonNull? && WithinUnit(cam.position, req.position.value)
  {
  }
}

=== FILE: diamond_sphere.dfy ===
/** The scene-side bookkeeping of src/scenes/DiamondSphere.ts: the
    explosion record driven by `hideStructure` / `showStructure` and its
    completion, the auto-rotation flag, the per-frame hook that reads both,
    and the four camera presets that delegate to `moveCameraTo`.

    While a ratio animation plays, the engine writes in-between values into
    the record's `ratio`; the easing curve is the engine's, so such a write
    is an event carrying any value between the newest animation's two keys.
    `beginAnimation` stops the animatable already running on the record
    before starting the new one, and stopping it runs its end callback.
    Calls to the mesh exploder are recorded with the ratio they receive.

    The scene's orbit angles advance with auto-rotation; the presets take
    the camera they move as a separate `ArcCamera` argument, so nothing here
    ties a preset's start values to the angles the rotation reached. */
module DiamondSphere {
  import opened Nullable
  import opened Observable
  import opened CameraTransition

  const CAMERA_Y: real := 0.8

  /** `speed` in `_animateExplosionRatioTo`: the frame rate of the ratio
      animation and the frame of its last key. */
  const RATIO_FRAMES: nat := 120

  const HIDDEN_RATIO: real := 0.05
  const SHOWN_RATIO: real := 0.24

  /** The ratio the meshes are exploded to right after loading. */
  const LOAD_RATIO: real := 0.05

  /** Per-frame auto-rotation increments of the camera angles. */
  const ALPHA_STEP: real := 0.008
  const BETA_STEP: real := 0.02

  /** The camera angles given to the `ArcRotateCamera` constructor. */
  const INITIAL_ALPHA: real := 6.33
  const INITIAL_BETA: real := 1.13

  datatype Key = Key(frame: nat, value: real)

  /** One `Animation` of the `ratio` property with its keys. */
  datatype RatioAnim = RatioAnim(fps: nat, keys: seq<Key>)

  /** `_explosionInfo`. */
  datatype ExplosionInfo = ExplosionInfo(ratio: real, animations: seq<RatioAnim>, update: bool)

  /** `_explosionInfo` as the field initialiser declares it. */
  const INITIAL_INFO: ExplosionInfo := ExplosionInfo(0.0, [], false)

  /** The fields of the scene object that this bookkeeping reads and writes:
      the explosion record, the rotation flag, whether `_parent` is set, the
      camera's two orbit angles, and the ratios passed to `explode` so far;
      and, on the engine's side, whether an animatable started by
      `beginAnimation` is still running on the record. */
  datatype Scene = Scene(
    info: ExplosionInfo,
    playing: bool,
    stopRotation: bool,
    hasParent: bool,
    alpha: real,
    beta: real,
    explodeCalls: seq<real>)

  /** The ratio animation for a move from `start` to `ratio`. */
  function RatioAnimation(start: real, ratio: real): RatioAnim
  {
    RatioAnim(RATIO_FRAMES, [Key(0, start), Key(RATIO_FRAMES, ratio)])
  }

  /** `_animateExplosionRatioTo(ratio)`: raises `update` and appends one
      animation running from the current ratio to `ratio`; the ratio itself
      only changes as the engine plays the animation. */
  function AnimateExplosionRatioTo(info: ExplosionInfo, ratio: real): (r: ExplosionInfo)
    ensures r.update
    ensures r.ratio == info.ratio
    ensures |r.animations| == |info.animations| + 1
    ensures r.animations[..|info.animations|] == info.animations
    ensures r.animations[|info.animations|].keys == [Key(0, info.ratio), Key(RATIO_FRAMES, ratio)]
  {
    ExplosionInfo(info.ratio, info.animations + [RatioAnimation(info.ratio, ratio)], true)
  }

  /** The end value of an animation: the value of its last key. */
  function FinalValue(a: RatioAnim): real
    requires |a.keys| > 0
  {
    a.keys[|a.keys| - 1].value
  }

  /** Completion of the ratio animation: the engine leaves `ratio` at the
      last key of the newest animation, then the `beginAnimation` callback
      clears `update`. */
  function RatioAnimationEnd(info: ExplosionInfo): (r: ExplosionInfo)
    requires forall k :: 0 <= k < |info.animations| ==> |info.animations[k].keys| > 0
    ensures !r.update
    ensures r.animations == info.animations
    ensures |info.animations| > 0 ==> r.ratio == FinalValue(info.animations[|info.animations| - 1])
    ensures |info.animations| == 0 ==> r.ratio == info.ratio
  {
    var ratio := if |info.animations| > 0 then FinalValue(info.animations[|info.animations| - 1]) else info.ratio;
    ExplosionInfo(ratio, info.animations, false)
  }

  /** Starting a ratio animation and letting it complete: `update` is down
      again and the ratio has reached the requested value. */
  lemma AnimateThenComplete(info: ExplosionInfo, ratio: real)
    requires forall k :: 0 <= k < |info.animations| ==> |info.animations[k].keys| > 0
    ensures var r := RatioAnimationEnd(AnimateExplosionRatioTo(info, ratio));
      && r.ratio == ratio
      && !r.update
      && |r.animations| == |info.animations| + 1
  {
  }

  /** `_animateExplosionRatioTo` together with what `beginAnimation` does to
      the engine: an animatable still running on the record is stopped, and
      its end callback lowers the `update` flag just raised; then a new
      animatable runs. */
  function StartRatioAnimation(s: Scene, ratio: real): (r: Scene)
    ensures r.playing
    ensures r.info.update <==> !s.playing
    ensures r.info.ratio == s.info.ratio
    ensures |r.info.animations| == |s.info.animations| + 1
    ensures r.info.animations[..|s.info.animations|] == s.info.animations
    ensures r.info.animations[|s.info.animations|] == RatioAnimation(s.info.ratio, ratio)
    ensures r.(info := s.info, playing := s.playing) == s
  {
    var started := AnimateExplosionRatioTo(s.info, ratio);
    s.(info := if s.playing then started.(update := false) else started, playing := true)
  }

  /** `hideStructure` / `showStructure`. */
  function HideStructure(s: Scene): (r: Scene)
    ensures r.playing && (r.info.update <==> !s.playing)
    ensures |r.info.animations| == |s.info.animations| + 1
    ensures r.info.animations[|s.info.animations|] == RatioAnimation(s.info.ratio, HIDDEN_RATIO)
  {
    StartRatioAnimation(s, HIDDEN_RATIO)
  }

  function ShowStructure(s: Scene): (r: Scene)
    ensures r.playing && (r.info.update <==> !s.playing)
    ensures |r.info.animations| == |s.info.animations| + 1
    ensures r.info.animations[|s.info.animations|] == RatioAnimation(s.info.ratio, SHOWN_RATIO)
  {
    StartRatioAnimation(s, SHOWN_RATIO)
  }

  /** The body of the `onBeforeRenderObservable` hook added at the end of
      `_createDiamondDemo`: auto-rotation while a parent exists and rotation
      is not stopped, then an `explode` with the current ratio while
      `update` is raised. */
  function Frame(s: Scene): (r: Scene)
    ensures r.info == s.info && r.playing == s.playing
    ensures r.stopRotation == s.stopRotation && r.hasParent == s.hasParent
    ensures s.hasParent && !s.stopRotation ==> r.alpha == s.alpha + ALPHA_STEP && r.beta == s.beta + BETA_STEP
    ensures !s.hasParent || s.stopRotation ==> r.alpha == s.alpha && r.beta == s.beta
    ensures r.explodeCalls == if s.info.update then s.explodeCalls + [s.info.ratio] else s.explodeCalls
  {
    var rotated := if s.hasParent && !s.stopRotation then s.(alpha := s.alpha + ALPHA_STEP, beta := s.beta + BETA_STEP) else s;
    if rotated.info.update then rotated.(explodeCalls := rotated.explodeCalls + [rotated.info.ratio]) else rotated
  }

  /** The scene before `initScene` finishes. */
  const INITIAL_SCENE: Scene := Scene(INITIAL_INFO, false, false, false, INITIAL_ALPHA, INITIAL_BETA, [])

  /** The bookkeeping part of `_createDiamondDemo`: the loaded meshes are
      exploded to 0.05, the parent transform is created and, with no wait in
      between, the per-frame hook is registered; so `hasParent` also says
      whether the hook runs. */
  function Load(s: Scene): (r: Scene)
    ensures r.info == s.info && r.playing == s.playing && r.stopRotation == s.stopRotation
    ensures r.alpha == s.alpha && r.beta == s.beta
    ensures r.hasParent
    ensures r.explodeCalls == s.explodeCalls + [LOAD_RATIO]
  {
    s.(explodeCalls := s.explodeCalls + [LOAD_RATIO], hasParent := true)
  }

  /** Right after loading, the meshes sit at ratio 0.05 while the record
      still says 0, so the first ratio animation starts from 0. */
  lemma LoadedLayoutAheadOfRatio(target: real)
    ensures var s := Load(INITIAL_SCENE);
      && s.explodeCalls == [LOAD_RATIO]
      && s.info.ratio == 0.0
      && !s.info.update
      && s.info.animations == []
      && AnimateExplosionRatioTo(s.info, target).animations[0].keys[0].value == 0.0 != LOAD_RATIO
  {
  }

  /** What can happen to the scene: the four public entry
      points, a rendered frame, an in-between value written by the engine
      into `ratio`, and the end of the ratio animation. */
  datatype Event = Hide | Show | StartRotation | StopRotation | Tick | Interpolate(value: real) | RatioEnd

  /** Every ratio animation has two keys, at frame 0 and frame 120. */
  predicate WellFormed(info: ExplosionInfo)
  {
    forall k :: 0 <= k < |info.animations| ==>
      |info.animations[k].keys| == 2
      && info.animations[k].keys[0].frame == 0
      && info.animations[k].keys[1].frame == RATIO_FRAMES
  }

  predicate Between(v: real, a: real, b: real)
  {
    (a <= v <= b) || (b <= v <= a)
  }

  /** One frame of the playing ratio animation: while an animatable runs
      the engine writes a value between the newest animation's two keys into
      `ratio` (the ease-in-out curve does not overshoot); any other value,
      or a write with no animation playing, leaves the record alone. */
  function EngineWrite(info: ExplosionInfo, playing: bool, v: real): (r: ExplosionInfo)
    requires WellFormed(info)
    ensures r.update == info.update && r.animations == info.animations
    ensures r.ratio == info.ratio || r.ratio == v
    ensures r.ratio != info.ratio ==>
      && playing
      && |info.animations| > 0
      && Between(r.ratio, info.animations[|info.animations| - 1].keys[0].value,
                 info.animations[|info.animations| - 1].keys[1].value)
  {
    if playing && |info.animations| > 0
       && Between(v, info.animations[|info.animations| - 1].keys[0].value,
                  info.animations[|info.animations| - 1].keys[1].value)
    then info.(ratio := v)
    else info
  }

  function Step(s: Scene, e: Event): (r: Scene)
    requires WellFormed(s.info)
    // the rotation entry points touch nothing but the flag
    ensures e.StartRotation? || e.StopRotation? ==>
      && r.stopRotation == e.StopRotation?
      && r.info == s.info && r.playing == s.playing && r.hasParent == s.hasParent
      && r.alpha == s.alpha && r.beta == s.beta && r.explodeCalls == s.explodeCalls
    // before loading no per-frame hook is registered
    ensures e.Tick? && !s.hasParent ==> r == s
    // an engine write touches nothing but the ratio
    ensures e.Interpolate? ==> r.(info := r.info.(ratio := s.info.ratio)) == s
  {
    match e
    case Hide => HideStructure(s)
    case Show => ShowStructure(s)
    case StartRotation => s.(stopRotation := false)
    case StopRotation => s.(stopRotation := true)
    case Tick => if s.hasParent then Frame(s) else s
    case Interpolate(v) => s.(info := EngineWrite(s.info, s.playing, v))
    case RatioEnd =>
      if s.playing then s.(info := RatioAnimationEnd(s.info), playing := false) else s
  }

  lemma StepKeepsWellFormed(s: Scene, e: Event)
    requires WellFormed(s.info)
    ensures WellFormed(Step(s, e).info)
  {
    if e.Hide? || e.Show? {
      var r := Step(s, e).info;
      assert forall k :: 0 <= k < |s.info.animations| ==> r.animations[k] == s.info.animations[k];
    }
  }

  /** Runs the events in order. */
  function Run(s: Scene, events: seq<Event>): (r: Scene)
    requires WellFormed(s.info)
    ensures WellFormed(r.info)
    decreases |events|
  {
    if events == [] then s
    else
      StepKeepsWellFormed(s, events[0]);
      Run(Step(s, events[0]), events[1..])
  }

  /** Before loading no per-frame hook is registered, so a frame after
      `hideStructure` calls no `explode` although `update` is raised. */
  lemma NoFrameBeforeLoad()
    ensures var r := Run(INITIAL_SCENE, [Hide, Tick]);
      r.info.update && r.explodeCalls == []
  {
    assert [Hide, Tick][1..] == [Tick];
  }

  /** The `animations` list only ever grows: every run keeps the earlier
      animations, in order, at its front. */
  lemma {:induction false} AnimationsOnlyGrow(s: Scene, events: seq<Event>)
    requires WellFormed(s.info)
    ensures |Run(s, events).info.animations| >= |s.info.animations|
    ensures Run(s, events).info.animations[..|s.info.animations|] == s.info.animations
    decreases |events|
  {
    if events != [] {
      StepKeepsWellFormed(s, events[0]);
      var next := Step(s, events[0]);
      assert next.info.animations[..|s.info.animations|] == s.info.animations;
      AnimationsOnlyGrow(next, events[1..]);
      var r := Run(next, events[1..]);
      assert r.info.animations[..|s.info.animations|] == r.info.animations[..|next.info.animations|][..|s.info.animations|];
    }
  }

  /** Between fully assembled and `showStructure`'s target. */
  predicate InRange(v: real)
  {
    0.0 <= v <= SHOWN_RATIO
  }

  /** The ratio, every key of every ratio animation and every ratio passed
      to `explode` lies in [0, 0.24]. */
  predicate RatiosInRange(s: Scene)
  {
    && WellFormed(s.info)
    && InRange(s.info.ratio)
    && (forall k :: 0 <= k < |s.info.animations| ==>
          InRange(s.info.animations[k].keys[0].value) && InRange(s.info.animations[k].keys[1].value))
    && (forall k :: 0 <= k < |s.explodeCalls| ==> InRange(s.explodeCalls[k]))
  }

  lemma StepKeepsRatiosInRange(s: Scene, e: Event)
    requires RatiosInRange(s)
    ensures RatiosInRange(Step(s, e))
  {
    StepKeepsWellFormed(s, e);
    var r := Step(s, e);
    if e.Hide? || e.Show? {
      assert forall k :: 0 <= k < |s.info.animations| ==> r.info.animations[k] == s.info.animations[k];
    }
  }

  /** Whatever happens after loading, including animations started while
      another is still playing, the ratio the scene holds, every key it
      gives the engine and every ratio it passes to `explode` stays within
      [0, 0.24]. */
  lemma {:induction false} RatiosStayInRange(s: Scene, events: seq<Event>)
    requires RatiosInRange(s)
    ensures RatiosInRange(Run(s, events))
    decreases |events|
  {
    if events != [] {
      StepKeepsRatiosInRange(s, events[0]);
      RatiosStayInRange(Step(s, events[0]), events[1..]);
    }
  }

  lemma LoadedRatiosInRange()
    ensures RatiosInRange(Load(INITIAL_SCENE))
  {
  }

  /** The number of frames in a run of events. */
  function TickCount(events: seq<Event>): nat
  {
    if events == [] then 0 else (if events[0].Tick? then 1 else 0) + TickCount(events[1..])
  }

  /** Events that neither start nor end a ratio animation. */
  predicate Quiet(e: Event)
  {
    e.Tick? || e.Interpolate? || e.StartRotation? || e.StopRotation?
  }

  /** Quiet events keep the animation list, the `update` flag and the
      running animatable. */
  lemma {:induction false} QuietKeepsAnimation(s: Scene, events: seq<Event>)
    requires WellFormed(s.info)
    requires forall k :: 0 <= k < |events| ==> Quiet(events[k])
    ensures Run(s, events).info.animations == s.info.animations
    ensures Run(s, events).info.update == s.info.update
    ensures Run(s, events).playing == s.playing
    decreases |events|
  {
    if events != [] {
      StepKeepsWellFormed(s, events[0]);
      QuietKeepsAnimation(Step(s, events[0]), events[1..]);
    }
  }

  /** While `update` is raised and neither a new ratio animation nor the
      running one's end intervenes, `update` stays raised and, once the
      scene is loaded, every frame calls `explode` once. */
  lemma {:induction false} UpdateHeldUntilEnd(s: Scene, events: seq<Event>)
    requires WellFormed(s.info)
    requires s.info.update
    requires forall k :: 0 <= k < |events| ==> Quiet(events[k])
    ensures Run(s, events).info.update
    ensures |Run(s, events).explodeCalls| == |s.explodeCalls| + if s.hasParent then TickCount(events) else 0
    decreases |events|
  {
    if events != [] {
      StepKeepsWellFormed(s, events[0]);
      UpdateHeldUntilEnd(Step(s, events[0]), events[1..]);
    }
  }

  /** `update` is raised only while an animatable runs on the record. */
  predicate UpdateWithinPlay(s: Scene)
  {
    s.info.update ==> s.playing
  }

  lemma {:induction false} UpdateOnlyWhilePlaying(s: Scene, events: seq<Event>)
    requires WellFormed(s.info)
    requires UpdateWithinPlay(s)
    ensures UpdateWithinPlay(Run(s, events))
    decreases |events|
  {
    if events != [] {
      StepKeepsWellFormed(s, events[0]);
      UpdateOnlyWhilePlaying(Step(s, events[0]), events[1..]);
    }
  }

  /** With an animatable running and `update` down, nothing short of that
      animation's end raises `update`: a new `hideStructure` or
      `showStructure` stops the running animatable, whose end callback
      lowers the flag once more. Meanwhile frames call `explode` no more. */
  lemma {:induction false} StalledUntilEnd(s: Scene, events: seq<Event>)
    requires WellFormed(s.info)
    requires s.playing && !s.info.update
    requires forall k :: 0 <= k < |events| ==> !events[k].RatioEnd?
    ensures Run(s, events).playing && !Run(s, events).info.update
    ensures Run(s, events).explodeCalls == s.explodeCalls
    decreases |events|
  {
    if events != [] {
      StepKeepsWellFormed(s, events[0]);
      StalledUntilEnd(Step(s, events[0]), events[1..]);
    }
  }

  /** `hideStructure` or `showStructure` while a ratio animation is still
      running: `update` ends up down, and frames stop calling `explode`. */
  lemma RestartWhilePlaying(s: Scene, e: Event, events: seq<Event>)
    requires WellFormed(s.info)
    requires s.playing
    requires e.Hide? || e.Show?
    requires forall k :: 0 <= k < |events| ==> !events[k].RatioEnd?
    ensures !Run(s, [e] + events).info.update
    ensures Run(s, [e] + events).explodeCalls == s.explodeCalls
  {
    StepKeepsWellFormed(s, e);
    assert ([e] + events)[0] == e;
    assert ([e] + events)[1..] == events;
    StalledUntilEnd(Step(s, e), events);
  }

  /** The two entry points that start a ratio animation. */
  predicate Starts(e: Event)
  {
    e.Hide? || e.Show?
  }

  /** With no animatable running and `update` down, only a new
      `hideStructure` or `showStructure` changes the record: frames call
      no `explode`, and the meshes keep the layout of the last one. */
  lemma {:induction false} IdleKeepsLayout(s: Scene, events: seq<Event>)
    requires WellFormed(s.info)
    requires !s.playing && !s.info.update
    requires forall k :: 0 <= k < |events| ==> !Starts(events[k])
    ensures Run(s, events).info == s.info && !Run(s, events).playing
    ensures Run(s, events).explodeCalls == s.explodeCalls
    decreases |events|
  {
    if events != [] {
      StepKeepsWellFormed(s, events[0]);
      IdleKeepsLayout(Step(s, events[0]), events[1..]);
    }
  }

  /** A restart while a ratio animation runs, up to the new animation's end:
      the record settles at the new target with `update` down and no
      animatable running, and no frame has called `explode`. */
  lemma RestartThenEnd(s: Scene, e: Event, events: seq<Event>)
    requires WellFormed(s.info)
    requires s.playing
    requires Starts(e)
    requires forall k :: 0 <= k < |events| ==> Quiet(events[k])
    ensures var r := Run(s, [e] + events + [RatioEnd]);
      && r.explodeCalls == s.explodeCalls
      && !r.info.update && !r.playing
      && r.info.ratio == (if e.Hide? then HIDDEN_RATIO else SHOWN_RATIO)
  {
    StepKeepsWellFormed(s, e);
    var started := Step(s, e);
    assert ([e] + events)[0] == e;
    assert ([e] + events)[1..] == events;
    RestartWhilePlaying(s, e, events);
    QuietKeepsAnimation(started, events);
    var m := Run(started, events);
    assert m == Run(s, [e] + events);
    RunAppend(s, [e] + events, [RatioEnd]);
    assert Run(m, [RatioEnd]) == Step(m, RatioEnd);
  }

  /** A restart while a ratio animation runs, carried past that animation's
      end: the record settles at the new target with `update` down, and no
      frame calls `explode` from the restart until the next
      `hideStructure` / `showStructure`, so the meshes stay at the last
      ratio exploded before the restart. */
  lemma RestartLeavesLayoutBehind(s: Scene, e: Event, events: seq<Event>, after: seq<Event>)
    requires WellFormed(s.info)
    requires s.playing
    requires Starts(e)
    requires forall k :: 0 <= k < |events| ==> Quiet(events[k])
    requires forall k :: 0 <= k < |after| ==> !Starts(after[k])
    ensures var r := Run(s, [e] + events + [RatioEnd] + after);
      && r.explodeCalls == s.explodeCalls
      && !r.info.update
      && r.info.ratio == (if e.Hide? then HIDDEN_RATIO else SHOWN_RATIO)
  {
    var head := [e] + events + [RatioEnd];
    RestartThenEnd(s, e, events);
    var ended := Run(s, head);
    IdleKeepsLayout(ended, after);
    RunAppend(s, head, after);
  }

  /** Showing, exploding twice on the way, then hiding mid-show: after the
      hide has finished the record says 0.05, but the meshes were last
      exploded to 0.2 and frames apply nothing more. */
  lemma HideMidShowStrandsLayout()
    ensures var r := Run(Load(INITIAL_SCENE), [Show, Tick, Interpolate(0.2), Tick, Hide, Tick, RatioEnd, Tick, Tick]);
      && r.explodeCalls == [LOAD_RATIO, 0.0, 0.2]
      && r.info.ratio == HIDDEN_RATIO
      && !r.info.update
  {
    var first := [Show, Tick, Interpolate(0.2), Tick];
    var s := Run(Load(INITIAL_SCENE), first);
    assert first[1..] == [Tick, Interpolate(0.2), Tick];
    assert first[1..][1..] == [Interpolate(0.2), Tick];
    assert first[1..][1..][1..] == [Tick];
    assert s.playing && s.explodeCalls == [LOAD_RATIO, 0.0, 0.2];
    RestartLeavesLayoutBehind(s, Hide, [Tick], [Tick, Tick]);
    assert [Show, Tick, Interpolate(0.2), Tick, Hide, Tick, RatioEnd, Tick, Tick]
      == first + ([Hide] + [Tick] + [RatioEnd] + [Tick, Tick]);
    RunAppend(Load(INITIAL_SCENE), first, [Hide] + [Tick] + [RatioEnd] + [Tick, Tick]);
  }

  /** Showing, then hiding before the show has finished: the following
      frame applies no ratio, so the only `explode` so far is the load's. */
  lemma ShowThenHideStalls()
    ensures var r := Run(Load(INITIAL_SCENE), [Show, Hide, Tick]);
      !r.info.update && r.explodeCalls == [LOAD_RATIO]
  {
    var s := Step(Load(INITIAL_SCENE), Show);
    assert [Show, Hide, Tick][1..] == [Hide, Tick];
    RestartWhilePlaying(s, Hide, [Tick]);
    assert [Hide] + [Tick] == [Hide, Tick];
  }

  /** `hideStructure` from any scene: through any frames, engine writes and
      rotation toggles `update` is raised exactly when no animation was
      running before, and the animation's end lowers it with the ratio
      settled at 0.05. */
  lemma HideSettles(s: Scene, events: seq<Event>)
    requires WellFormed(s.info)
    requires forall k :: 0 <= k < |events| ==> Quiet(events[k])
    ensures Run(s, [Hide] + events).info.update <==> !s.playing
    ensures var r := Run(s, [Hide] + events + [RatioEnd]);
      r.info.ratio == HIDDEN_RATIO && !r.info.update && !r.playing
  {
    var h := HideStructure(s);
    StepKeepsWellFormed(s, Hide);
    assert ([Hide] + events)[0] == Hide;
    assert ([Hide] + events)[1..] == events;
    assert Run(s, [Hide] + events) == Run(h, events);
    QuietKeepsAnimation(h, events);
    RunAppend(s, [Hide] + events, [RatioEnd]);
    var m := Run(h, events);
    assert m.info.animations[|m.info.animations| - 1] == RatioAnimation(s.info.ratio, HIDDEN_RATIO);
    assert Run(m, [RatioEnd]) == Step(m, RatioEnd);
  }

  /** Running two event lists one after the other. */
  lemma {:induction false} RunAppend(s: Scene, first: seq<Event>, second: seq<Event>)
    requires WellFormed(s.info)
    ensures Run(s, first + second) == Run(Run(s, first), second)
    decreases |first|
  {
    if first == [] {
      assert first + second == second;
    } else {
      StepKeepsWellFormed(s, first[0]);
      assert (first + second)[0] == first[0];
      assert (first + second)[1..] == first[1..] + second;
      RunAppend(Step(s, first[0]), first[1..], second);
    }
  }

  /** While rotation is stopped and nothing restarts it, frames leave the
      camera angles alone. */
  lemma {:induction false} StoppedRotationHolds(s: Scene, events: seq<Event>)
    requires WellFormed(s.info)
    requires s.stopRotation
    requires forall k :: 0 <= k < |events| ==> events[k] != StartRotation
    ensures Run(s, events).alpha == s.alpha && Run(s, events).beta == s.beta
    decreases |events|
  {
    if events != [] {
      StepKeepsWellFormed(s, events[0]);
      StoppedRotationHolds(Step(s, events[0]), events[1..]);
    }
  }

  /** `stopRotation` freezes the next frame's camera angles and
      `startRotation` lets it advance them again, once a parent exists. */
  lemma RotationToggle(s: Scene)
    requires WellFormed(s.info)
    requires s.hasParent
    ensures var r := Run(s, [StopRotation, Tick]);
      r.alpha == s.alpha && r.beta == s.beta
    ensures var r := Run(s, [StartRotation, Tick]);
      r.alpha == s.alpha + ALPHA_STEP && r.beta == s.beta + BETA_STEP
  {
    assert [StopRotation, Tick][1..] == [Tick];
    assert [StartRotation, Tick][1..] == [Tick];
  }

  /** The orbit a camera preset moves to. */
  datatype Orbit = Orbit(alpha: real, beta: real, radius: real, target: Vec3)

  datatype Preset = Camera0 | Camera1 | Camera2 | Camera3

  /** The constants of `setCamera0` .. `setCamera3`. */
  function PresetOrbit(p: Preset): Orbit
  {
    match p
    case Camera0 => Orbit(6.33, 1.13, 12.2687, Vec3(0.0, CAMERA_Y - 0.1, 0.0))
    case Camera1 => Orbit(-1.69, 0.38, 2.5, Vec3(0.0, CAMERA_Y, 0.12))
    case Camera2 => Orbit(0.0, 0.08, 3.0, Vec3(0.0, CAMERA_Y, 0.12))
    case Camera3 => Orbit(-0.49, 0.89, 15.0, Vec3(0.0, CAMERA_Y, 0.0))
  }

  /** `_animateCamera(alpha, beta, radius, target)`: `moveCameraTo` with no
      position, the orbit, default speed and frame count, and no callback. */
  function AnimateCameraRequest(o: Orbit): Request
  {
    Request(Null, NonNull(o.target), NonNull(o.alpha), NonNull(o.beta), NonNull(o.radius), Omitted, Omitted, false)
  }

  /** `setCameraN()` on a camera, a closeness test and a hook list: never a
      no-op, never a `forceRebuild` registration, and exactly the three
      orbit properties animated, from their current values to the preset's
      at 60 frames per second over 60 frames. The preset's target is passed
      along but never animated. */
  function SetCamera(p: Preset, cam: ArcCamera, near: (Vec3, Vec3) -> bool, hooks: seq<Hook>): (r: Launch)
    ensures r.Launched?
    ensures r.hooks == hooks
    ensures r.call == Transition([Alpha, Beta, Radius], false)
    ensures r.anims == [
      Anim(Alpha, Scalar(cam.alpha), Scalar(PresetOrbit(p).alpha), 60.0, 60.0),
      Anim(Beta, Scalar(cam.beta), Scalar(PresetOrbit(p).beta), 60.0, 60.0),
      Anim(Radius, Scalar(cam.radius), Scalar(PresetOrbit(p).radius), 60.0, 60.0)]
  {
    var req := AnimateCameraRequest(PresetOrbit(p));
    var r := MoveCameraTo(cam, req, near, hooks);
    assert AnimNames(req) == [Alpha, Beta, Radius];
    r
  }

  /** The bookkeeping a preset leaves is three pending names and no
      callback. For any such call, whatever the order of the three
      completions, the list empties on the third, no callback runs, and the
      `forceRebuild` removal is attempted there. */
  lemma {:induction false} OrbitCompletion(call: Transition, hooks: seq<Hook>, events: seq<Prop>)
    requires |call.pending| == 3 && !call.hasCallback
    requires multiset(events) == multiset(call.pending)
    ensures var run := Drive(call, hooks, events, 0);
      && run.callbackAt == []
      && run.finishedAt == [2]
      && run.hooks == RemoveCallback(hooks, ForceRebuild)
  {
    assert |events| == 3 by {
      assert |multiset(events)| == |multiset(call.pending)| == |call.pending|;
    }
    CompletesExactlyOnce(call, hooks, events, 0);
  }

  /** A preset transition, run to completion, never fires a callback and
      ends by attempting the `forceRebuild` removal on the third completion. */
  lemma PresetCompletion(p: Preset, cam: ArcCamera, near: (Vec3, Vec3) -> bool, hooks: seq<Hook>, events: seq<Prop>)
    requires multiset(events) == multiset([Alpha, Beta, Radius])
    ensures var l := SetCamera(p, cam, near, hooks);
      var run := Drive(l.call, l.hooks, events, 0);
      && run.callbackAt == []
      && run.finishedAt == [2]
      && run.hooks == RemoveCallback(hooks, ForceRebuild)
  {
    OrbitCompletion(SetCamera(p, cam, near, hooks).call, hooks, events);
  }
}

=== FILE: nullable.dfy ===
/** Optional arguments as the source's TypeScript signatures see them. */
module Nullable {

  /** A value of type `T | null`. */
  datatype Nullable<+T> = Null | NonNull(value: T)

  /** A parameter with a default: either left out by the caller (so the
      default applies) or passed explicitly, possibly as `null`. In
      JavaScript a default replaces only an omitted argument, never an
      explicit `null`. */
  datatype Param<+T> = Omitted | Passed(arg: Nullable<T>)

  /** Binding a parameter whose declared default is `default`. */
  function Bind<T>(p: Param<T>, default: T): (r: Nullable<T>)
    ensures p.Omitted? ==> r == NonNull(default)
    ensures p.Passed? ==> r == p.arg
  {
    match p
    case Omitted => NonNull(default)
    case Passed(a) => a
  }

  /** `if (x === null) x = fallback`. */
  function OrElse<T>(n: Nullable<T>, fallback: T): T
  {
    match n
    case Null => fallback
    case NonNull(v) => v
  }
}

=== FILE: observable.dfy ===
/** The scene's per-frame hook list (`scene.onBeforeRenderObservable`),
    reduced to the observers this core adds and removes. */
module Observable {
  import opened Seqs

  /** `ForceRebuild` is the shared `forceRebuild` function of camera.ts;
      every other observer of the scene is opaque here. */
  datatype Hook = ForceRebuild | Observer(id: nat)

  /** `add(cb)`: observers run in registration order, so a new one goes last. */
  function Add(hooks: seq<Hook>, h: Hook): (r: seq<Hook>)
    ensures |r| == |hooks| + 1 && r[|hooks|] == h
    ensures r[..|hooks|] == hooks
  {
    hooks + [h]
  }

  /** `removeCallback(cb)`: unregisters the first observer whose callback is
      `cb` by reference, keeping the others in registration order, and does
      nothing when there is none. */
  function RemoveCallback(hooks: seq<Hook>, h: Hook): (r: seq<Hook>)
    ensures h !in hooks ==> r == hooks
    ensures h in hooks ==> multiset(r) == multiset(hooks) - multiset{h}
    ensures h in hooks ==> |r| == |hooks| - 1
    ensures h in hooks ==> exists i :: 0 <= i < |hooks| && hooks[i] == h && h !in hooks[..i] && r == hooks[..i] + hooks[i + 1..]
  {
    if h in hooks then
      var i := FirstIndex(hooks, h);
      var r := RemoveAt(hooks, i);
      assert r == hooks[..i] + hooks[i + 1..];
      assert h !in hooks[..i];
      r
    else hooks
  }

  /** Removing a callback right after adding it to a list that did not hold
      it restores the list exactly. */
  lemma RemoveAfterAdd(hooks: seq<Hook>, h: Hook)
    requires h !in hooks
    ensures RemoveCallback(Add(hooks, h), h) == hooks
  {
    var l := Add(hooks, h);
    assert forall j :: 0 <= j < |hooks| ==> l[j] == hooks[j] != h;
  }
}

=== FILE: seqs.dfy ===
/** Sequence helpers shared by the hook list and the pending-name list. */
module Seqs {

  /** `indexOf` for an element that is present: the position of its first occurrence. */
  function FirstIndex<T(==)>(s: seq<T>, x: T): (i: nat)
    requires x in s
    ensures i < |s| && s[i] == x
    ensures forall j :: 0 <= j < i ==> s[j] != x
  {
    if s[0] == x then 0 else 1 + FirstIndex(s[1..], x)
  }

  /** `splice(i, 1)` for an index inside the sequence. */
  function RemoveAt<T>(s: seq<T>, i: nat): (r: seq<T>)
    requires i < |s|
    ensures |r| == |s| - 1
    ensures multiset(r) == multiset(s) - multiset{s[i]}
    ensures forall j :: 0 <= j < i ==> r[j] == s[j]
    ensures forall j :: i <= j < |r| ==> r[j] == s[j + 1]
  {
    assert s == s[..i] + [s[i]] + s[i + 1..];
    s[..i] + s[i + 1..]
  }

  /** `s.splice(s.indexOf(x), 1)`: removes the first `x`; when `x` is absent
      `indexOf` yields -1 and `splice(-1, 1)` removes the last element
      (of which an empty sequence has none). */
  function SpliceOut<T(==)>(s: seq<T>, x: T): (r: seq<T>)
    ensures x in s ==> multiset(r) == multiset(s) - multiset{x}
    ensures x in s ==> exists i :: 0 <= i < |s| && s[i] == x && x !in s[..i] && r == s[..i] + s[i + 1..]
    ensures x !in s && |s| > 0 ==> r == s[..|s| - 1]
    ensures |r| == if |s| == 0 then 0 else |s| - 1
  {
    if x in s then
      var i := FirstIndex(s, x);
      var r := RemoveAt(s, i);
      assert r == s[..i] + s[i + 1..];
      assert x !in s[..i];
      r
    else if |s| > 0 then s[..|s| - 1]
    else s
  }
}
